=== FILE: README.md ===
# Plugin registry over Redux: a Dafny model

This project models the core of `redux-plugins-immutable`. That library keeps a
registry of plugins at `state.plugins` in an Immutable.js state. A plugin is a
record: a `key`, a `loadStatus` (NOT_LOADED, LOADING or LOADED), an optional
`loadError`, and optional `load`, `reducer`, `middleware` and
`pluginWasAdded` functions. The library has three cooperating parts, and each
is modelled as pure, sequential logic:

- **The lifecycle reducer.** It handles ADD, REPLACE, INSTALL and
  SET_PLUGIN_STATUS on `plugins[key]`. Malformed input returns the state
  unchanged. A second stage then threads the state through every stored
  plugin's own `reducer`, in collection order (`Reducer`). The older variant
  has no REPLACE handler (`LegacyReducer`).
- **The middleware.**
  - ADD forwards the action, then calls the payload's `pluginWasAdded` hook.
  - LOAD forwards the action, then runs the load protocol. It checks the
    record, dispatches LOADING, calls the loader, and then dispatches either
    INSTALL or a NOT_LOADED status carrying the error.
  - Both handlers are written as functions that return a trace of effects and
    a result (`Middleware`). The loader's asynchronous outcome is an input.
- **Composition order.** The effective plugin reducer and the effective plugin
  middleware are the functions the stored plugins contribute, read in
  collection order, skipping plugins that contribute none (`Composition`).

Files and modules:

| file | module | contents |
|---|---|---|
| plugin_record.dfy | `Values` | the value universe, records, truthiness, `mergeDeep` (`MergeFields`) |
| plugin_actions.dfy | `Actions` | the five action types, the constructors, and the readers the handlers use |
| plugin_collection.dfy | `Collection` | the ordered key-unique collection, the state, lookup/put and the frame condition `OnlyTouches` |
| composition.dfy | `Composition` | `Contributed`: the functions plugins contribute under a field, in order |
| plugin_reducer.dfy | `Reducer` | the four handlers, the lifecycle stage, the plugin-reducer stage |
| legacy_plugin_reducer.dfy | `LegacyReducer` | the variant without REPLACE |
| plugin_middleware.dfy | `Middleware` | the ADD and LOAD handlers, the plugin middleware chain, the exported middleware, the end-to-end LOAD lemma |

Modelling choices:

- **Values.** A value is one of `Str | Status | Err(id) | Fn(id) | Nested(map)`.
  Functions and errors are opaque ids. Under JavaScript truthiness, only the
  empty string is falsy in this universe.
- **Keys.** Collection keys are values, not only strings. The source accepts
  any truthy `key`, and the model does the same.
- **Order.** The model fixes the collection's order to insertion order: an
  update keeps a key in its place, and a new key is appended at the end. This
  is the order a small Immutable.js Map iterates in; larger maps iterate by
  hash (see "Left out").
- **Plugin-supplied functions.** They are parameters. A plugin reducer is
  `apply(id, state, action)`. One plugin middleware step is `step(id, action)`:
  it either passes an action on or stops the chain.
- **Two facts about the program that are easy to get wrong:**
  - The loader's outcome is taken from the promise `load` returns whenever that
    promise is truthy, and from the callback only otherwise. The first to
    settle does not win. A pending returned promise keeps the load pending
    even after the callback has reported success, and a rejected one
    overrides a successful callback (`Middleware.ReturnedPromiseWins`,
    `Middleware.PendingPromiseIgnoresCallback`,
    `Middleware.RejectedPromiseOverridesCallback`).
  - "LOADED implies no `loadError`" is not an invariant. Only INSTALL
    establishes it, and SET_PLUGIN_STATUS can store both
    (`Reducer.LoadedWithErrorIsStorable`).

## Model

| member | source | states |
|---|---|---|
| Values.MergeFields | src/pluginReducer.js:68 | a deep merge keeps every key of both records; an existing field the incoming record lacks is kept; an incoming field overrides unless both sides are maps |
| Values.MergeRetains | src/pluginReducer.js:68 | the merge is deep: an existing field survives unless the incoming record overrides it, and where both sides hold a map the existing map's fields are retained at every depth |
| Values.DeepMergeKeepsInner | src/pluginReducer.js:68 | merging `{f: {y}}` over `{f: {x}}` gives `{f: {x, y}}`, not `{f: {y}}` |
| Values.MergeCovers | src/pluginReducer.js:68 | every incoming field survives a deep merge, at every nesting depth |
| Values.MergeIdempotent | src/pluginReducer.js:68 | merging the same incoming record a second time changes nothing |
| Values.MergeSelf | src/pluginReducer.js:68 | a record deep-merged over itself is unchanged |
| Actions.ActionTypesDistinct | src/pluginActions.js:7-11 | the five action-type constants are pairwise distinct |
| Actions.AddPlugin | src/pluginActions.js:13-18 | the action has type ADD_PLUGIN and carries the record unchanged as payload |
| Actions.ReplacePlugin | src/pluginActions.js:20-25 | the action has type REPLACE_PLUGIN and carries the record unchanged as payload |
| Actions.LoadPlugin | src/pluginActions.js:27-32 | the action has type LOAD_PLUGIN and carries the key itself as payload |
| Actions.InstallPlugin | src/pluginActions.js:34-39 | the action has type INSTALL_PLUGIN and carries the record unchanged as payload |
| Actions.SetPluginStatus | src/pluginActions.js:41-47 | the action has type SET_PLUGIN_STATUS, the key in `meta.key` and the status fields unchanged as payload |
| Actions.DecodeEncode | src/pluginActions.js:13-47 | reading back any constructed action, the way the handlers read it, gives exactly the request it was built from |
| Collection.Lookup | src/pluginMiddleware.js:35 | `getIn(['plugins', key])` finds a record exactly when the key is among the collection's keys |
| Collection.LookupAt | src/pluginMiddleware.js:35 | in a key-unique collection, the entry at each position is exactly what its key finds |
| Collection.PutLookup | src/pluginReducer.js:67-70 | after `Put` (the set behind `updateIn`), the key finds the new record and every other key finds what it found before |
| Collection.PutKeys | src/pluginReducer.js:67-70 | `Put` keeps the key order: an existing key stays in place and a new key is appended, the insertion order the model fixes |
| Collection.PutUnique | src/pluginReducer.js:67-70 | `Put` never introduces a duplicate key |
| Collection.Store | src/pluginReducer.js:35-38 | `updateIn(['plugins', key], …)` when it stores a record, creating the collection if absent: the key then finds the record, only that key is touched (`OnlyTouches`: other fields, other records and the existing key order unchanged, at most the key appended), and key uniqueness is kept |
| Reducer.PluginArg | src/pluginReducer.js:25-33 | the validation ADD, REPLACE and INSTALL share (also at :41-49 and :57-65): it yields a key and record exactly when the payload is a map whose `key` is truthy, and then the record is the payload itself and the key its `key` field |
| Reducer.WithDefaultStatus | src/pluginReducer.js:37 | a present, truthy `loadStatus` is kept and a missing or falsy one becomes NOT_LOADED; every other field is kept and no field is added |
| Reducer.InstalledRecord | src/pluginReducer.js:67-70 | the installed record is LOADED with no `loadError`; every incoming field except those two survives; an existing field the incoming record lacks is kept |
| Reducer.ApplyStatus | src/pluginReducer.js:76-86 | the status is overwritten only when a truthy one is given; the error is set when given and deleted otherwise; no other field changes |
| Reducer.AddHandler | src/pluginReducer.js:24-39 | a non-map payload or falsy key leaves the state unchanged; a present key leaves it unchanged; an absent key stores the record with its status defaulted and its `key` equal to the map key; nothing else changes |
| Reducer.ReplaceHandler | src/pluginReducer.js:40-55 | a non-map payload or falsy key changes nothing; an absent key creates no entry; a present key holds the incoming record with its status defaulted and no old field kept; nothing else changes |
| Reducer.InstallHandler | src/pluginReducer.js:56-71 | a non-map payload or falsy key changes nothing; otherwise the key holds the incoming record merged over the existing one (or the incoming record alone), LOADED with no error; nothing else changes |
| Reducer.SetStatusHandler | src/pluginReducer.js:72-88 | a missing key changes nothing; otherwise only that record changes, as `ApplyStatus` states |
| Reducer.Lifecycle | src/pluginReducer.js:22-89 | any other action type leaves the state unchanged; key uniqueness is preserved |
| Reducer.LifecycleKeepsKeysMatch | src/pluginReducer.js:31-35 | if every stored record's `key` equals its map key before a lifecycle action, the same holds after it |
| Reducer.LoadedWithErrorIsStorable | src/pluginReducer.js:72-88 | SET_PLUGIN_STATUS can store LOADED together with an error, so "LOADED implies no error" is not an invariant |
| Reducer.SelectPluginReducers | src/pluginReducer.js:15-20 | with no `plugins` collection nothing is selected, so the stage is the identity; which reducers are selected, and in what order, is stated by `Reducer.SelectedReducers` and `Reducer.PluginStageInOrder` |
| Reducer.RunReducers | src/pluginReducer.js:18 | the fold `composeReducers` stands for: one reducer composes to itself, and reducers that all leave the state alone compose to the identity; sequencing is stated by `Reducer.RunReducersAppend` |
| Reducer.SelectedReducers | src/pluginReducer.js:15-20 | a reducer is selected exactly when some stored plugin holds it under `reducer` |
| Reducer.RunReducersAppend | src/pluginReducer.js:90-91 | running two reducer lists one after the other equals running their concatenation, each reducer seeing the previous output |
| Reducer.PluginReducer | src/pluginReducer.js:90-91 | with no `plugins` entry after the lifecycle stage, the plugin-reducer stage is the identity |
| Reducer.PluginStageInOrder | src/pluginReducer.js:15-20 | for a collection split in two, the plugin stage runs the first part's reducers, then the second part's on that output |
| Reducer.NoPluginReducers | src/pluginReducer.js:90-91 | when no stored plugin has a reducer, the whole reducer equals the lifecycle stage |
| Reducer.ReducerScenario | src/test/pluginReducerTests.js:137-169 | for p1 (reducer), p2 (none), p3 (reducer), the stage applies p1's reducer, then p3's on its output, and skips p2 |
| Composition.Contributed | src/pluginReducer.js:17-18 | `plugins.map(p => p.get(field))` with plugins lacking a function skipped: when no plugin contributes, the result is empty; membership and order are stated by `Composition.ContributedMembers`, `Composition.ContributedAppend` and `Composition.ContributedInOrder` |
| Composition.ContributedAppend | src/pluginReducer.js:17-18 | the contributions of a concatenated collection are the concatenated contributions, so collection order is kept |
| Composition.ContributedMembers | src/pluginMiddleware.js:70-75 | a function is contributed exactly when some plugin holds it under the field |
| Composition.ContributedSkips | src/pluginMiddleware.js:72-73 | a plugin without a function under the field does not change the composition |
| Composition.ContributedAt | src/pluginReducer.js:17-18 | the function of the plugin at position i comes right after everything the plugins before it contribute |
| Composition.ContributedInOrder | src/pluginReducer.js:15-20 | of two contributing plugins, the earlier plugin's function comes first |
| LegacyReducer.LegacyLifecycle | src/lib/pluginReducer.js:23-73 | agrees with the current lifecycle stage on every action type except REPLACE, which changes nothing |
| LegacyReducer.LegacyPluginReducer | src/lib/pluginReducer.js:22-76 | agrees with the current reducer except on REPLACE, which reaches only the plugin-reducer stage |
| LegacyReducer.EmptyStateUnknownAction | src/test/pluginReducerTests.js:12-15 | with no plugins, an action that is not a lifecycle action leaves the state unchanged |
| LegacyReducer.AddTwiceKeepsFirst | src/test/pluginReducerTests.js:17-45 | ADD stores the record with NOT_LOADED defaulted; a second ADD with the same key leaves the state unchanged |
| LegacyReducer.InstallMarksLoaded | src/test/pluginReducerTests.js:47-93 | INSTALL yields LOADED with no error and every other incoming field, whatever status and error the incoming record carries |
| LegacyReducer.SetStatusOnlyNamedKey | src/test/pluginReducerTests.js:113-134 | SET_PLUGIN_STATUS touches only the named key: an omitted status is kept, an omitted error is removed, a given error is stored |
| Middleware.AddPluginHandler | src/pluginMiddleware.js:19-29 | the action is forwarded first; the hook is then called exactly once when the payload carries one; the forwarded result is returned; a truthy payload that is not a map, or a truthy hook that is not a function, throws; a missing or falsy payload or hook is skipped without throwing |
| Middleware.HookFiresOnDuplicate | src/pluginMiddleware.js:19-29 | the hook fires even when the reducer ignored the ADD because the key already existed |
| Middleware.ReturnedPromiseWins | src/pluginMiddleware.js:46-51 | when `load` returns a promise, the whole LOAD run is the same whatever the callback reports |
| Middleware.CallbackWithoutPromise | src/pluginMiddleware.js:46-51 | when `load` returns nothing, the callback's report is read exactly as a returned promise settling the same way |
| Middleware.PendingPromiseIgnoresCallback | src/pluginMiddleware.js:46-51 | a returned promise that never settles keeps the load pending, with nothing installed, even though the callback reported a record |
| Middleware.RejectedPromiseOverridesCallback | src/pluginMiddleware.js:46-54 | a returned promise that rejects makes the load dispatch the failure status and reject, even though the callback reported a record |
| Middleware.LoadPluginHandler | src/pluginMiddleware.js:31-68 | LOAD is forwarded first. A missing record rejects and a LOADED record resolves to itself, both with nothing dispatched. No `load` function rejects with no status change. Otherwise LOADING is dispatched before the loader is called, and the result is INSTALL with the key forced and the loader's record (success), NOT_LOADED with the error and a rejection with it (failure), or a rejection that leaves LOADING (not a record) |
| Middleware.StartedLoadDispatches | src/pluginMiddleware.js:44-62 | a started load dispatches LOADING, then exactly one completion action or none |
| Middleware.LoadSucceeds | src/pluginMiddleware.js:55-58 | after a successful load is reduced, the record is LOADED with no error and holds the loader's fields |
| Middleware.LoadFails | src/pluginMiddleware.js:51-54 | after a failed load is reduced, the record is NOT_LOADED and holds the error when the error is truthy |
| Middleware.LoadStalls | src/pluginMiddleware.js:59-62 | after an unsettled load or a non-record value, the record stays LOADING with no error |
| Middleware.LoadThenReduce | src/pluginMiddleware.js:44-62 | reducing a LOAD's dispatched actions changes only that record, and the load's result agrees with the state reached in every outcome, including a record stored under a falsy key |
| Middleware.LoadUnderFalsyKey | src/pluginMiddleware.js:55-58 | for a record stored under a falsy key, a successful load's INSTALL is ignored by the reducer's key check, so the record stays LOADING |
| Middleware.SecondLoadShortCircuits | src/pluginMiddleware.js:37-38 | after a successful load, a second LOAD of the same key resolves at once with the stored record and dispatches nothing |
| Middleware.RunChain | src/pluginMiddleware.js:72-74 | the middleware that ran is a prefix of the chain, starting with the first; the terminal dispatch is reached only if every middleware ran |
| Middleware.RunChainAllPass | test/pluginMiddlewareTests.js:168-198 | when every middleware passes the action on, all of them run in order and the action reaches the store unchanged |
| Middleware.SelectPluginMiddleware | src/pluginMiddleware.js:70-75 | with no `plugins` collection no middleware is selected, so the stage passes actions through; order is stated by `Middleware.MiddlewareInCollectionOrder` |
| Middleware.DynamicStage | src/pluginMiddleware.js:70-83 | middleware is selected from the state current at dispatch; with no `plugins` the stage passes through; only selected middleware runs, the earliest plugin's first |
| Middleware.MiddlewareInCollectionOrder | src/pluginMiddleware.js:70-75 | of two plugins with middleware, the earlier plugin's comes earlier in the chain; whatever the middleware do, if the later one ran then the earlier one ran before it; when all pass the action on, both run |
| Middleware.ExportedMiddleware | src/pluginMiddleware.js:77-83 | the plugin stage always runs on the dispatched action, selected from the dispatch-time state; ADD runs exactly the ADD handler and LOAD exactly the LOAD handler, with the plugin stage as their `next`, so every fact about those handlers holds of the export; ADD returns what the plugin chain returned |
| Middleware.OtherActionsPassThrough | src/pluginMiddleware.js:77-83 | any other action goes straight to the plugin middleware selected from the current state; with no plugins it reaches the store unchanged |
| Middleware.BuiltInBeforePlugins | src/pluginMiddleware.js:77-83 | for ADD and LOAD the plugin middleware sees the unchanged action, forwarded exactly once and before any hook call or status dispatch |
| Middleware.HookFiresWhenPluginStops | src/pluginMiddleware.js:19-29 | an ADD's hook fires even when a plugin middleware stops the action before the store |
| Middleware.MiddlewareScenario | test/pluginMiddlewareTests.js:168-198 | for plugins a (middleware), c (none), b (middleware), a dispatch runs a's middleware, then b's, and reaches the store unchanged |

## Left out

- Promises, bluebird and `Promise.fromNode` are not modelled. The gap between LOADING and completion is not modelled either. The loader's outcome is an input value (`LoaderOutcome`), and ordering is captured by the effect trace.
- The unguarded race when LOAD is dispatched twice for the same key is left out, because it is concurrency.
- The reference-identity memoization of `createSelector` is left out. Each selector is a pure function of the current state, which is what the memoization computes.
- The internals of `createReducer`, `composeReducers`, `createMiddleware` and `composeMiddleware` come from a library that is not part of this model. They are treated as type dispatch plus an ordered fold. A `reducer` or `middleware` entry that is not a function is skipped; the source would call it and throw.
- The `warning(...)` calls only log, so they are left out.
- The bodies of plugin-supplied `load`, `reducer`, `middleware` and `pluginWasAdded` functions are opaque ids or abstract functions.
- src/reduxTypes.js holds only type aliases, and the Dafny types replace them. src/pluginTypes.js is not part of this model: the three statuses are an enum of their own, distinct from strings.
- Immutable.js internals (hashing, `withMutations`, iteration-order rules) are left out. Records are Dafny maps. The collection is a sequence with distinct keys, where updates keep a key's position and new keys are appended.
- Reducer.SetStatusHandler: an action without `meta` or without `payload` makes the source throw while destructuring. The model treats a missing `meta` as a key that is never found and a missing payload as `{}`.
- Values.Truthy: numbers, booleans, `null` and arrays are not in the value universe, so their truthiness is not modelled.
- Middleware.LoadThenReduce: dispatched actions go through the lifecycle stage only. Plugin middleware is assumed to pass them on unchanged, and plugin reducers are assumed not to touch `plugins`.
- Middleware.LoadPluginHandler: a loader that returns a truthy non-promise value (the source would throw on `.catch`) is not modelled.
- Middleware.ExportedMiddleware: the state the LOAD handler reads (`after`) is a parameter. That it equals the dispatch-time state when a plugin middleware stops the LOAD is not enforced.
- Middleware.AddPluginHandler: the store facade given to the hook is not modelled. The trace records only that the hook was called, and when.

=== FILE: composition.dfy ===
/**
 Composition order. Both the effective plugin reducer and the effective
 plugin middleware are built from the functions the stored plugins contribute
 under one field (`reducer` or `middleware`), read in collection order, with
 plugins that contribute none skipped.
 */
module Composition {
  import opened Values
  import opened Collection

  /** The function ids contributed under `field`, in collection order. */
  function Contributed(c: Plugins, field: string): (ids: seq<FnId>)
    ensures (forall i :: 0 <= i < |c| ==> FnField(c[i].1, field).None?) ==> ids == []
  {
    if |c| == 0 then []
    else
      (if FnField(c[0].1, field).Some? then [FnField(c[0].1, field).value] else [])
      + Contributed(c[1..], field)
  }

  /** Contributions of a concatenation are the concatenated contributions:
      an earlier plugin's function always comes before a later plugin's. */
  lemma {:induction false} ContributedAppend(c1: Plugins, c2: Plugins, field: string)
    ensures Contributed(c1 + c2, field) == Contributed(c1, field) + Contributed(c2, field)
  {
    if |c1| == 0 {
      assert c1 + c2 == c2;
    } else {
      assert (c1 + c2)[0] == c1[0];
      assert (c1 + c2)[1..] == c1[1..] + c2;
      ContributedAppend(c1[1..], c2, field);
    }
  }

  /** A function is contributed exactly when some stored plugin holds it under `field`. */
  lemma {:induction false} ContributedMembers(c: Plugins, field: string, id: FnId)
    ensures id in Contributed(c, field) <==> exists i :: 0 <= i < |c| && FnField(c[i].1, field) == Some(id)
  {
    if |c| > 0 {
      ContributedMembers(c[1..], field, id);
      if id in Contributed(c[1..], field) {
        var i :| 0 <= i < |c[1..]| && FnField(c[1..][i].1, field) == Some(id);
        assert c[i + 1] == c[1..][i];
      }
      if exists i :: 0 <= i < |c| && FnField(c[i].1, field) == Some(id) {
        var i :| 0 <= i < |c| && FnField(c[i].1, field) == Some(id);
        if i > 0 {
          assert c[1..][i - 1] == c[i];
        }
      }
    }
  }

  /** A plugin that contributes nothing under `field` does not change the composition. */
  lemma ContributedSkips(c1: Plugins, e: Entry, c2: Plugins, field: string)
    requires FnField(e.1, field).None?
    ensures Contributed(c1 + [e] + c2, field) == Contributed(c1 + c2, field)
  {
    ContributedAppend(c1 + [e], c2, field);
    ContributedAppend(c1, [e], field);
    ContributedAppend(c1, c2, field);
    assert Contributed([e], field) == [] by {
      assert [e][1..] == [];
    }
  }

  /** The function of the plugin at position `i` sits right after everything
      contributed by the plugins before it. */
  lemma ContributedAt(c: Plugins, field: string, i: nat)
    requires i < |c| && FnField(c[i].1, field).Some?
    ensures var p := |Contributed(c[..i], field)|;
      p < |Contributed(c, field)| && Contributed(c, field)[p] == FnField(c[i].1, field).value
    ensures Contributed(c[..i + 1], field) == Contributed(c[..i], field) + [FnField(c[i].1, field).value]
  {
    assert c == c[..i] + [c[i]] + c[i + 1..];
    assert c[..i + 1] == c[..i] + [c[i]];
    assert [c[i]][1..] == [];
    ContributedAppend(c[..i] + [c[i]], c[i + 1..], field);
    ContributedAppend(c[..i], [c[i]], field);
  }

  /** Of two contributing plugins, the earlier one's function comes first. */
  lemma ContributedInOrder(c: Plugins, field: string, i: nat, j: nat)
    requires i < j < |c|
    requires FnField(c[i].1, field).Some? && FnField(c[j].1, field).Some?
    ensures var ids := Contributed(c, field);
      var p := |Contributed(c[..i], field)|;
      var q := |Contributed(c[..j], field)|;
      p < q < |ids| && ids[p] == FnField(c[i].1, field).value && ids[q] == FnField(c[j].1, field).value
  {
    ContributedAt(c, field, i);
    ContributedAt(c, field, j);
    assert c[..j] == c[..i + 1] + c[i + 1..j];
    ContributedAppend(c[..i + 1], c[i + 1..j], field);
  }
}

=== FILE: legacy_plugin_reducer.dfy ===
/**
 The older reducer variant under `src/lib`. Its ADD, INSTALL and
 SET_PLUGIN_STATUS handlers are the same as the current ones; it has no
 REPLACE handler, so a REPLACE-typed action reaches only the plugin-reducer
 stage. Its record test is `instanceof Immutable.Collection` rather than
 `Immutable.Map`; in this value universe the only collections are maps, so
 the two tests coincide.
 */
module LegacyReducer {
  import opened Values
  import opened Actions
  import opened Collection
  import opened Reducer

  function LegacyLifecycle(s: State, a: Action): (s': State)
    ensures a.kind != REPLACE_PLUGIN ==> s' == Lifecycle(s, a)
    ensures a.kind == REPLACE_PLUGIN ==> s' == s
  {
    if a.kind == ADD_PLUGIN then AddHandler(s, a)
    else if a.kind == INSTALL_PLUGIN then InstallHandler(s, a)
    else if a.kind == SET_PLUGIN_STATUS then SetStatusHandler(s, a)
    else s
  }

  function LegacyPluginReducer(s: State, a: Action, apply: (FnId, State, Action) -> State): (s': State)
    ensures a.kind != REPLACE_PLUGIN ==> s' == PluginReducer(s, a, apply)
    ensures a.kind == REPLACE_PLUGIN ==> s' == RunReducers(SelectPluginReducers(s), s, a, apply)
  {
    var s1 := LegacyLifecycle(s, a);
    RunReducers(SelectPluginReducers(s1), s1, a, apply)
  }

  /** With no plugins, an action that is not a lifecycle action leaves the
      state exactly as it was. */
  lemma EmptyStateUnknownAction(s: State, a: Action, apply: (FnId, State, Action) -> State)
    requires s.plugins.None?
    requires a.kind !in {ADD_PLUGIN, REPLACE_PLUGIN, INSTALL_PLUGIN, SET_PLUGIN_STATUS}
    ensures LegacyPluginReducer(s, a, apply) == s
  {
  }

  /** ADD registers a record once, defaulting its status; a second ADD with
      the same key, whatever else it carries, leaves the first record in place. */
  lemma AddTwiceKeepsFirst(s: State, p: Record, q: Record)
    requires KEY in p && KEY in q && p[KEY] == q[KEY] && Truthy(p[KEY])
    requires Find(s, p[KEY]).None?
    ensures var k := p[KEY];
      var s1 := LegacyLifecycle(s, AddPlugin(p));
      var s2 := LegacyLifecycle(s1, AddPlugin(q));
      && Find(s1, k).Some?
      && (forall f :: f in p && f != LOAD_STATUS ==> f in Find(s1, k).value && Find(s1, k).value[f] == p[f])
      && (LOAD_STATUS !in p ==> Find(s1, k).value[LOAD_STATUS] == Status(NOT_LOADED))
      && s2 == s1
  {
    var k := p[KEY];
    assert PluginArg(AddPlugin(p)) == Some((k, p));
    assert PluginArg(AddPlugin(q)) == Some((k, q));
  }

  /** INSTALL yields LOADED with no error even when the incoming record says
      NOT_LOADED and carries an error, whether or not the key was registered. */
  lemma InstallMarksLoaded(s: State, p: Record)
    requires KEY in p && Truthy(p[KEY])
    ensures var k := p[KEY];
      var s' := LegacyLifecycle(s, InstallPlugin(p));
      && Find(s', k).Some?
      && Field(Find(s', k).value, LOAD_STATUS) == Some(Status(LOADED))
      && LOAD_ERROR !in Find(s', k).value
      && Covers(Find(s', k).value, p - {LOAD_STATUS, LOAD_ERROR})
  {
    var k := p[KEY];
    assert PluginArg(InstallPlugin(p)) == Some((k, p));
  }

  /** SET_PLUGIN_STATUS changes only the named record: an omitted status is
      kept, an omitted error is removed, a given error is stored. */
  lemma SetStatusOnlyNamedKey(s: State, k: Value, f: StatusFields)
    requires Find(s, k).Some?
    ensures var s' := LegacyLifecycle(s, SetPluginStatus(k, f));
      && OnlyTouches(s, s', k)
      && (!Present(f.loadStatus) ==> Field(Find(s', k).value, LOAD_STATUS) == Field(Find(s, k).value, LOAD_STATUS))
      && (Present(f.loadError) ==> Field(Find(s', k).value, LOAD_ERROR) == f.loadError)
      && (!Present(f.loadError) ==> LOAD_ERROR !in Find(s', k).value)
  {
  }
}

=== FILE: plugin_actions.dfy ===
/**
 The registry's action vocabulary: five action-type constants and the
 constructors that build `{type, payload, meta}` actions, together with the
 readers the reducer and the middleware use to take those actions apart.
 */
module Actions {
  import opened Values

  const ADD_PLUGIN: string := "ADD_PLUGIN"
  const REPLACE_PLUGIN: string := "REPLACE_PLUGIN"
  const LOAD_PLUGIN: string := "LOAD_PLUGIN"
  const INSTALL_PLUGIN: string := "INSTALL_PLUGIN"
  const SET_PLUGIN_STATUS: string := "SET_PLUGIN_STATUS"

  /** The plain `{loadStatus?, loadError?}` object a status change carries. */
  datatype StatusFields = StatusFields(loadStatus: Option<Value>, loadError: Option<Value>)

  /** An action payload: absent, a value (an immutable map when it is a
      plugin record), or a plain status object. */
  datatype Payload = NoPayload | Val(v: Value) | Fields(f: StatusFields)

  /** A dispatched action: `kind` is its `type`; `meta` holds `meta.key` when present. */
  datatype Action = Action(kind: string, payload: Payload, meta: Option<Value>)

  lemma ActionTypesDistinct()
    ensures ADD_PLUGIN != REPLACE_PLUGIN && ADD_PLUGIN != LOAD_PLUGIN
    ensures ADD_PLUGIN != INSTALL_PLUGIN && ADD_PLUGIN != SET_PLUGIN_STATUS
    ensures REPLACE_PLUGIN != LOAD_PLUGIN && REPLACE_PLUGIN != INSTALL_PLUGIN
    ensures REPLACE_PLUGIN != SET_PLUGIN_STATUS && LOAD_PLUGIN != INSTALL_PLUGIN
    ensures LOAD_PLUGIN != SET_PLUGIN_STATUS && INSTALL_PLUGIN != SET_PLUGIN_STATUS
  {
  }

  // ---- Readers: how the handlers take an action apart ----

  /** The plugin record a record-carrying action holds, when its payload is
      an immutable map (the `instanceof Immutable.Map` test). */
  function PluginOf(a: Action): Option<Record> {
    if a.payload.Val? && a.payload.v.Nested? then Some(a.payload.v.fields) else None
  }

  /** The key a load action names (`action.payload`); `None` when the payload
      is something no stored key can equal. */
  function LoadKeyOf(a: Action): Option<Value> {
    if a.payload.Val? then Some(a.payload.v) else None
  }

  /** `{payload: {loadStatus, loadError}}` destructured; a payload without
      those properties reads as both absent. */
  function StatusFieldsOf(a: Action): StatusFields {
    if a.payload.Fields? then a.payload.f else StatusFields(None, None)
  }

  // ---- Constructors ----

  function AddPlugin(plugin: Record): (a: Action)
    ensures a.kind == ADD_PLUGIN && PluginOf(a) == Some(plugin) && a.meta.None?
  {
    Action(ADD_PLUGIN, Val(Nested(plugin)), None)
  }

  function ReplacePlugin(plugin: Record): (a: Action)
    ensures a.kind == REPLACE_PLUGIN && PluginOf(a) == Some(plugin) && a.meta.None?
  {
    Action(REPLACE_PLUGIN, Val(Nested(plugin)), None)
  }

  function LoadPlugin(key: Value): (a: Action)
    ensures a.kind == LOAD_PLUGIN && LoadKeyOf(a) == Some(key) && a.meta.None?
  {
    Action(LOAD_PLUGIN, Val(key), None)
  }

  function InstallPlugin(plugin: Record): (a: Action)
    ensures a.kind == INSTALL_PLUGIN && PluginOf(a) == Some(plugin) && a.meta.None?
  {
    Action(INSTALL_PLUGIN, Val(Nested(plugin)), None)
  }

  function SetPluginStatus(key: Value, fields: StatusFields): (a: Action)
    ensures a.kind == SET_PLUGIN_STATUS && a.meta == Some(key) && StatusFieldsOf(a) == fields
  {
    Action(SET_PLUGIN_STATUS, Fields(fields), Some(key))
  }

  /** What a lifecycle action asks for, as the handlers read it. */
  datatype Request =
    | AddReq(plugin: Record)
    | ReplaceReq(plugin: Record)
    | LoadReq(key: Value)
    | InstallReq(plugin: Record)
    | SetStatusReq(key: Value, fields: StatusFields)

  function Encode(q: Request): Action {
    match q
    case AddReq(p) => AddPlugin(p)
    case ReplaceReq(p) => ReplacePlugin(p)
    case LoadReq(k) => LoadPlugin(k)
    case InstallReq(p) => InstallPlugin(p)
    case SetStatusReq(k, f) => SetPluginStatus(k, f)
  }

  /** Reads an action the way the reducer and the middleware do: dispatch on
      `type`, then read the payload (and `meta.key`) that type expects. */
  function Decode(a: Action): Option<Request> {
    if a.kind == ADD_PLUGIN && PluginOf(a).Some? then Some(AddReq(PluginOf(a).value))
    else if a.kind == REPLACE_PLUGIN && PluginOf(a).Some? then Some(ReplaceReq(PluginOf(a).value))
    else if a.kind == LOAD_PLUGIN && LoadKeyOf(a).Some? then Some(LoadReq(LoadKeyOf(a).value))
    else if a.kind == INSTALL_PLUGIN && PluginOf(a).Some? then Some(InstallReq(PluginOf(a).value))
    else if a.kind == SET_PLUGIN_STATUS && a.meta.Some? then Some(SetStatusReq(a.meta.value, StatusFieldsOf(a)))
    else None
  }

  /** Every constructor builds an action its handler reads back unchanged:
      the record, the key and the status fields pass through untouched. */
  lemma {:induction false} DecodeEncode(q: Request)
    ensures Decode(Encode(q)) == Some(q)
  {
    ActionTypesDistinct();
    match q
    case AddReq(p) =>
    case ReplaceReq(p) =>
    case LoadReq(k) =>
    case InstallReq(p) =>
    case SetStatusReq(k, f) =>
  }
}

=== FILE: plugin_collection.dfy ===
/**
 The plugin collection stored at `state.plugins`: an ordered, key-unique
 sequence of (key, record) entries. Iteration order is the sequence order;
 updating an existing key keeps its position and a new key goes at the end.
 The application state is the collection (absent until the first plugin is
 stored) together with every other top-level state field.
 */
module Collection {
  import opened Values

  type Entry = (Value, Record)
  type Plugins = seq<Entry>

  datatype State = State(plugins: Option<Plugins>, others: map<string, Value>)

  /** No key appears twice. */
  predicate Unique(c: Plugins) {
    forall i, j :: 0 <= i < j < |c| ==> c[i].0 != c[j].0
  }

  function Keys(c: Plugins): (ks: seq<Value>)
    ensures |ks| == |c| && forall i :: 0 <= i < |c| ==> ks[i] == c[i].0
  {
    seq(|c|, i requires 0 <= i < |c| => c[i].0)
  }

  /** `plugins.get(k)`. */
  function Lookup(c: Plugins, k: Value): (r: Option<Record>)
    ensures r.Some? <==> k in Keys(c)
  {
    if |c| == 0 then None
    else if c[0].0 == k then Some(c[0].1)
    else
      assert Keys(c) == [c[0].0] + Keys(c[1..]);
      Lookup(c[1..], k)
  }

  /** In a key-unique collection, the entry at position `i` is what its key looks up. */
  lemma {:induction false} LookupAt(c: Plugins, i: nat)
    requires Unique(c) && i < |c|
    ensures Lookup(c, c[i].0) == Some(c[i].1)
  {
    if i > 0 {
      UniqueTail(c);
      LookupAt(c[1..], i - 1);
    }
  }

  /** What `k` looks up is stored at some position under `k`. */
  lemma {:induction false} LookupIndex(c: Plugins, k: Value) returns (i: nat)
    requires Lookup(c, k).Some?
    ensures i < |c| && c[i] == (k, Lookup(c, k).value)
  {
    if c[0].0 == k {
      i := 0;
    } else {
      var j := LookupIndex(c[1..], k);
      i := j + 1;
    }
  }

  /** `plugins.set(k, r)`: overwrite in place, or append a new key. */
  function Put(c: Plugins, k: Value, r: Record): Plugins
  {
    if |c| == 0 then [(k, r)]
    else if c[0].0 == k then [(k, r)] + c[1..]
    else [c[0]] + Put(c[1..], k, r)
  }

  lemma UniqueTail(c: Plugins)
    requires Unique(c) && |c| > 0
    ensures Unique(c[1..]) && c[0].0 !in Keys(c[1..])
  {
    forall p, q | 0 <= p < q < |c[1..]| ensures c[1..][p].0 != c[1..][q].0 {
      assert c[1..][p] == c[p + 1] && c[1..][q] == c[q + 1];
    }
  }

  /** After `Put`, `k` finds the new record and every other key finds what it found before. */
  lemma {:induction false} PutLookup(c: Plugins, k: Value, r: Record)
    ensures Lookup(Put(c, k, r), k) == Some(r)
    ensures forall k' :: k' != k ==> Lookup(Put(c, k, r), k') == Lookup(c, k')
  {
    if |c| > 0 && c[0].0 != k {
      PutLookup(c[1..], k, r);
      var c' := Put(c, k, r);
      assert c'[1..] == Put(c[1..], k, r);
    }
  }

  lemma KeysCons(e: Entry, rest: Plugins)
    ensures Keys([e] + rest) == [e.0] + Keys(rest)
  {
  }

  /** `Put` keeps the key order: an existing key stays where it was, a new one is appended. */
  lemma {:induction false} PutKeys(c: Plugins, k: Value, r: Record)
    ensures k in Keys(c) ==> Keys(Put(c, k, r)) == Keys(c)
    ensures k !in Keys(c) ==> Keys(Put(c, k, r)) == Keys(c) + [k]
  {
    if |c| == 0 {
      assert Keys([(k, r)]) == [k];
    } else {
      assert c == [c[0]] + c[1..];
      KeysCons(c[0], c[1..]);
      if c[0].0 == k {
        KeysCons((k, r), c[1..]);
      } else {
        PutKeys(c[1..], k, r);
        KeysCons(c[0], Put(c[1..], k, r));
        assert k in Keys(c) <==> k in Keys(c[1..]);
      }
    }
  }

  /** `Put` never introduces a duplicate key. */
  lemma PutUnique(c: Plugins, k: Value, r: Record)
    ensures Unique(c) ==> Unique(Put(c, k, r))
  {
    if !Unique(c) { return; }
    var c' := Put(c, k, r);
    PutKeys(c, k, r);
    forall i, j | 0 <= i < j < |c'| ensures c'[i].0 != c'[j].0 {
      assert Keys(c')[i] == c'[i].0 && Keys(c')[j] == c'[j].0;
      if j >= |c| {
        assert Keys(c')[j] == k && k !in Keys(c);
        assert Keys(c)[i] == Keys(c')[i];
      } else {
        assert Keys(c)[i] == Keys(c')[i] && Keys(c)[j] == Keys(c')[j];
      }
    }
  }

  /** The record stored at `state.plugins[k]`, if any. */
  function Find(s: State, k: Value): Option<Record> {
    if s.plugins.Some? then Lookup(s.plugins.value, k) else None
  }

  /** The keys of the stored plugins, in iteration order. */
  function KeyOrder(s: State): seq<Value> {
    if s.plugins.Some? then Keys(s.plugins.value) else []
  }

  predicate WellFormed(s: State) {
    s.plugins.Some? ==> Unique(s.plugins.value)
  }

  /** `state.setIn(['plugins', k], r)`, creating the collection when absent. */
  function Store(s: State, k: Value, r: Record): (s': State)
    ensures Find(s', k) == Some(r)
    ensures OnlyTouches(s, s', k)
    ensures WellFormed(s) ==> WellFormed(s')
  {
    var c := if s.plugins.Some? then s.plugins.value else [];
    PutLookup(c, k, r);
    PutKeys(c, k, r);
    PutUnique(c, k, r);
    s.(plugins := Some(Put(c, k, r)))
  }

  /** Frame condition of a lifecycle action on key `k`: the other state
      fields, every other record and the order of the keys already present
      are untouched; at most `k` is appended. */
  ghost predicate OnlyTouches(s: State, s': State, k: Value) {
    && s'.others == s.others
    && (forall k' :: k' != k ==> Find(s', k') == Find(s, k'))
    && (KeyOrder(s') == KeyOrder(s) || (k !in KeyOrder(s) && KeyOrder(s') == KeyOrder(s) + [k]))
  }
}

=== FILE: plugin_middleware.dfy ===
/**
 The registry's middleware. Two action types are intercepted: ADD (forward,
 then call the added plugin's `pluginWasAdded` hook) and LOAD (forward, then
 drive the load protocol). Everything else goes to the plugins' own
 middleware, selected from the state current at dispatch time and run in
 collection order.

 Side effects are recorded as a trace of `Effect`s. The loader's asynchronous
 result is an input (`LoaderOutcome`); the plugin-supplied functions are
 opaque ids.
 */
module Middleware {
  import opened Values
  import opened Actions
  import opened Collection
  import opened Composition
  import opened Reducer

  datatype Effect =
    | Forward(action: Action)    // next(action)
    | Dispatch(action: Action)   // store.dispatch(action)
    | CallLoad(loader: FnId)     // load(store, callback)
    | CallHook(hook: FnId)       // pluginWasAdded(store)

  // ---- ADD: forward, then the hook ----

  datatype Completion<R> = Returned(value: R) | Threw
  datatype AddRun<R> = AddRun(effects: seq<Effect>, result: Completion<R>)

  /** The hook an ADD payload carries, read as `plugin.get('pluginWasAdded')`. */
  function HookOf(a: Action): Option<FnId> {
    if PluginOf(a).Some? then FnField(PluginOf(a).value, PLUGIN_WAS_ADDED) else None
  }

  /** `addPluginHandler`: `next(action)` first; then, when the payload is
      truthy, `payload.get('pluginWasAdded')` is called with the store if it
      is truthy. Reading `get` of a payload that is not a map, or calling a
      hook that is not a function, throws. `forwarded` is what `next` returned. */
  function AddPluginHandler<R>(a: Action, forwarded: R): (run: AddRun<R>)
    ensures 1 <= |run.effects| <= 2 && run.effects[0] == Forward(a)
    ensures |run.effects| == 2 <==> HookOf(a).Some?
    ensures |run.effects| == 2 ==> run.effects[1] == CallHook(HookOf(a).value)
    ensures run.result.Threw? <==>
      if PluginOf(a).Some? then Present(Field(PluginOf(a).value, PLUGIN_WAS_ADDED)) && HookOf(a).None?
      else a.payload.Fields? || (a.payload.Val? && Truthy(a.payload.v))
    ensures run.result.Returned? ==> run.result.value == forwarded
  {
    var fwd := [Forward(a)];
    match a.payload
    case NoPayload => AddRun(fwd, Returned(forwarded))
    case Fields(_) => AddRun(fwd, Threw)
    case Val(v) =>
      if !Truthy(v) then AddRun(fwd, Returned(forwarded))
      else if !v.Nested? then AddRun(fwd, Threw)
      else if !Present(Field(v.fields, PLUGIN_WAS_ADDED)) then AddRun(fwd, Returned(forwarded))
      else if v.fields[PLUGIN_WAS_ADDED].Fn? then
        AddRun(fwd + [CallHook(v.fields[PLUGIN_WAS_ADDED].fn)], Returned(forwarded))
      else AddRun(fwd, Threw)
  }

  /** The hook comes from the action, not from the state: it fires even when
      the reducer ignored the ADD because the key was already registered. */
  lemma HookFiresOnDuplicate<R>(s: State, p: Record, hook: FnId, forwarded: R)
    requires KEY in p && Truthy(p[KEY]) && Find(s, p[KEY]).Some?
    requires PLUGIN_WAS_ADDED in p && p[PLUGIN_WAS_ADDED] == Fn(hook)
    ensures Lifecycle(s, AddPlugin(p)) == s
    ensures AddPluginHandler(AddPlugin(p), forwarded).effects == [Forward(AddPlugin(p)), CallHook(hook)]
  {
    assert PluginArg(AddPlugin(p)) == Some((p[KEY], p));
  }

  // ---- LOAD: the load protocol ----

  /** How a loader's work settles: rejected, resolved with a value, or never. */
  datatype Settlement = Fail(error: Value) | Succ(value: Value) | Unsettled

  /** The two channels a loader can report on: the promise it returns (when
      it returns a truthy one) and the node-style callback it is handed. */
  datatype LoaderOutcome = LoaderOutcome(returned: Option<Settlement>, viaCallback: Settlement)

  /** `returnedPromise || callbackPromise`: a returned promise wins outright. */
  function Settled(o: LoaderOutcome): Settlement
  {
    if o.returned.Some? then o.returned.value else o.viaCallback
  }

  datatype Reason = NoSuchPlugin | NoLoadMethod | NotACollection | LoadFailed(error: Value)
  datatype LoadResult = Resolved(plugin: Record) | Rejected(reason: Reason) | Pending
  datatype LoadRun = LoadRun(effects: seq<Effect>, result: LoadResult)

  function LoadingFields(): StatusFields { StatusFields(Some(Status(LOADING)), None) }
  function FailedFields(e: Value): StatusFields { StatusFields(Some(Status(NOT_LOADED)), Some(e)) }

  /** The record a LOAD action names in the state observed after forwarding it. */
  function LoadTarget(a: Action, after: State): Option<Record> {
    if LoadKeyOf(a).Some? then Find(after, LoadKeyOf(a).value) else None
  }

  /** `loadPluginHandler`. `after` is the state read through `getState()`
      once the action has been forwarded. */
  function LoadPluginHandler(a: Action, after: State, outcome: LoaderOutcome): (run: LoadRun)
    ensures |run.effects| >= 1 && run.effects[0] == Forward(a)
    // no record: reject, nothing dispatched
    ensures LoadTarget(a, after).None? ==> run == LoadRun([Forward(a)], Rejected(NoSuchPlugin))
    // already loaded: resolve with that same record, nothing dispatched
    ensures LoadTarget(a, after).Some? && Field(LoadTarget(a, after).value, LOAD_STATUS) == Some(Status(LOADED)) ==>
      run == LoadRun([Forward(a)], Resolved(LoadTarget(a, after).value))
    // not loaded and no load function: reject, no status change
    ensures (LoadTarget(a, after).Some? && Field(LoadTarget(a, after).value, LOAD_STATUS) != Some(Status(LOADED))
             && FnField(LoadTarget(a, after).value, LOAD).None?) ==>
      run == LoadRun([Forward(a)], Rejected(NoLoadMethod))
    // otherwise LOADING is dispatched strictly before the loader is called
    ensures (LoadTarget(a, after).Some? && Field(LoadTarget(a, after).value, LOAD_STATUS) != Some(Status(LOADED))
             && FnField(LoadTarget(a, after).value, LOAD).Some?) ==>
      var k := LoadKeyOf(a).value;
      var st := Settled(outcome);
      && 3 <= |run.effects| <= 4
      && run.effects[1] == Dispatch(SetPluginStatus(k, LoadingFields()))
      && run.effects[2] == CallLoad(FnField(LoadTarget(a, after).value, LOAD).value)
      && (st.Fail? ==> run.effects[3..] == [Dispatch(SetPluginStatus(k, FailedFields(st.error)))]
                       && run.result == Rejected(LoadFailed(st.error)))
      && (st.Succ? && st.value.Nested? ==>
            run.effects[3..] == [Dispatch(InstallPlugin(st.value.fields[KEY := k]))]
            && run.result == Resolved(st.value.fields))
      && (st.Succ? && !st.value.Nested? ==> |run.effects| == 3 && run.result == Rejected(NotACollection))
      && (st.Unsettled? ==> |run.effects| == 3 && run.result == Pending)
  {
    var fwd := [Forward(a)];
    match LoadTarget(a, after)
    case None => LoadRun(fwd, Rejected(NoSuchPlugin))
    case Some(rec) =>
      if Field(rec, LOAD_STATUS) == Some(Status(LOADED)) then LoadRun(fwd, Resolved(rec))
      else
        match FnField(rec, LOAD)
        case None => LoadRun(fwd, Rejected(NoLoadMethod))
        case Some(loader) =>
          var k := LoadKeyOf(a).value;
          var started := fwd + [Dispatch(SetPluginStatus(k, LoadingFields())), CallLoad(loader)];
          match Settled(outcome)
          case Unsettled => LoadRun(started, Pending)
          case Fail(e) => LoadRun(started + [Dispatch(SetPluginStatus(k, FailedFields(e)))], Rejected(LoadFailed(e)))
          case Succ(v) =>
            if v.Nested? then LoadRun(started + [Dispatch(InstallPlugin(v.fields[KEY := k]))], Resolved(v.fields))
            else LoadRun(started, Rejected(NotACollection))
  }

  /** When the loader returns a promise, the callback plays no part: the run
      is the same whatever the callback reports. */
  lemma ReturnedPromiseWins(a: Action, after: State, st: Settlement, cb1: Settlement, cb2: Settlement)
    ensures LoadPluginHandler(a, after, LoaderOutcome(Some(st), cb1))
         == LoadPluginHandler(a, after, LoaderOutcome(Some(st), cb2))
  {
  }

  /** Without a returned promise, the callback is read exactly as a returned
      promise settling the same way would be. */
  lemma CallbackWithoutPromise(a: Action, after: State, cb: Settlement, other: Settlement)
    ensures LoadPluginHandler(a, after, LoaderOutcome(None, cb))
         == LoadPluginHandler(a, after, LoaderOutcome(Some(cb), other))
  {
  }

  /** A returned promise that never settles keeps the load pending even when
      the callback reports a loaded record: nothing is installed. */
  lemma PendingPromiseIgnoresCallback(s: State, k: Value, loaded: Record)
    requires Find(s, k).Some?
    requires Field(Find(s, k).value, LOAD_STATUS) != Some(Status(LOADED))
    requires FnField(Find(s, k).value, LOAD).Some?
    ensures var run := LoadPluginHandler(LoadPlugin(k), s, LoaderOutcome(Some(Unsettled), Succ(Nested(loaded))));
      run.result == Pending && |run.effects| == 3
  {
  }

  /** A returned promise that rejects overrides a callback that succeeded:
      the failure status is dispatched and the load rejects. */
  lemma RejectedPromiseOverridesCallback(s: State, k: Value, e: Value, loaded: Record)
    requires Find(s, k).Some?
    requires Field(Find(s, k).value, LOAD_STATUS) != Some(Status(LOADED))
    requires FnField(Find(s, k).value, LOAD).Some?
    ensures var run := LoadPluginHandler(LoadPlugin(k), s, LoaderOutcome(Some(Fail(e)), Succ(Nested(loaded))));
      run.result == Rejected(LoadFailed(e))
      && run.effects[3..] == [Dispatch(SetPluginStatus(k, FailedFields(e)))]
  {
  }

  /** The actions a trace dispatches, in order. */
  function Dispatched(effects: seq<Effect>): seq<Action>
  {
    if |effects| == 0 then []
    else (if effects[0].Dispatch? then [effects[0].action] else []) + Dispatched(effects[1..])
  }

  /** The lifecycle stage applied to a sequence of actions. */
  function ApplyAll(s: State, acts: seq<Action>): State
    decreases |acts|
  {
    if |acts| == 0 then s else ApplyAll(Lifecycle(s, acts[0]), acts[1..])
  }

  /** The completion actions a started load dispatches after LOADING. */
  function CompletionActions(k: Value, st: Settlement): seq<Action> {
    match st
    case Fail(e) => [SetPluginStatus(k, FailedFields(e))]
    case Succ(v) => if v.Nested? then [InstallPlugin(v.fields[KEY := k])] else []
    case Unsettled => []
  }

  /** A started load dispatches LOADING, then its completion, and nothing else. */
  lemma StartedLoadDispatches(s: State, k: Value, outcome: LoaderOutcome)
    requires Find(s, k).Some?
    requires Field(Find(s, k).value, LOAD_STATUS) != Some(Status(LOADED))
    requires FnField(Find(s, k).value, LOAD).Some?
    ensures Dispatched(LoadPluginHandler(LoadPlugin(k), s, outcome).effects)
         == [SetPluginStatus(k, LoadingFields())] + CompletionActions(k, Settled(outcome))
  {
    var run := LoadPluginHandler(LoadPlugin(k), s, outcome);
    var loading := SetPluginStatus(k, LoadingFields());
    var e0, e1, e2 := run.effects[0], run.effects[1], run.effects[2];
    var tail := run.effects[3..];
    assert run.effects == [e0] + ([e1] + ([e2] + tail));
    DispatchedCons(e0, [e1] + ([e2] + tail));
    DispatchedCons(e1, [e2] + tail);
    DispatchedCons(e2, tail);
    if |tail| == 1 {
      DispatchedCons(tail[0], []);
      assert tail == [tail[0]] + [];
    }
  }

  lemma DispatchedCons(e: Effect, rest: seq<Effect>)
    ensures Dispatched([e] + rest) == (if e.Dispatch? then [e.action] else []) + Dispatched(rest)
  {
    assert ([e] + rest)[1..] == rest;
  }

  /** The state a started load leaves behind: LOADING applied, then the completion. */
  lemma StartedLoadState(s: State, k: Value, outcome: LoaderOutcome)
    requires Find(s, k).Some?
    requires Field(Find(s, k).value, LOAD_STATUS) != Some(Status(LOADED))
    requires FnField(Find(s, k).value, LOAD).Some?
    ensures ApplyAll(s, Dispatched(LoadPluginHandler(LoadPlugin(k), s, outcome).effects))
         == ApplyAll(Lifecycle(s, SetPluginStatus(k, LoadingFields())), CompletionActions(k, Settled(outcome)))
  {
    var loading := SetPluginStatus(k, LoadingFields());
    StartedLoadDispatches(s, k, outcome);
    ApplyAllAppend(s, [loading], CompletionActions(k, Settled(outcome)));
    assert [loading][1..] == [];
  }

  lemma ApplyOne(s: State, a: Action)
    ensures ApplyAll(s, [a]) == Lifecycle(s, a)
  {
    assert [a][1..] == [];
  }

  /** LOADING is set and any earlier error cleared; the rest of the record is kept. */
  lemma LoadingStep(s: State, k: Value)
    requires Find(s, k).Some?
    ensures var s1 := Lifecycle(s, SetPluginStatus(k, LoadingFields()));
      && OnlyTouches(s, s1, k)
      && Find(s1, k).Some?
      && Field(Find(s1, k).value, LOAD_STATUS) == Some(Status(LOADING))
      && LOAD_ERROR !in Find(s1, k).value
      && Field(Find(s1, k).value, KEY) == Field(Find(s, k).value, KEY)
  {
    FieldNamesDistinct();
  }

  /** The record at `k` after a successful load: LOADED, no error, every
      field the loader returned (apart from those three) present. */
  ghost predicate InstalledAt(s: State, s': State, k: Value, loaded: Record) {
    && Find(s', k).Some?
    && Field(Find(s', k).value, LOAD_STATUS) == Some(Status(LOADED))
    && LOAD_ERROR !in Find(s', k).value
    && Covers(Find(s', k).value, loaded - {KEY, LOAD_STATUS, LOAD_ERROR})
    && (Find(s, k).Some? && Field(Find(s, k).value, KEY) == Some(k) ==> Field(Find(s', k).value, KEY) == Some(k))
  }

  /** The record at `k` after the loader failed with `e`. */
  ghost predicate FailedAt(s': State, k: Value, e: Value) {
    && Find(s', k).Some?
    && Field(Find(s', k).value, LOAD_STATUS) == Some(Status(NOT_LOADED))
    && (Truthy(e) ==> Field(Find(s', k).value, LOAD_ERROR) == Some(e))
    && (!Truthy(e) ==> LOAD_ERROR !in Find(s', k).value)
  }

  /** The record at `k` while a load is still LOADING. */
  ghost predicate LoadingAt(s': State, k: Value) {
    && Find(s', k).Some?
    && Field(Find(s', k).value, LOAD_STATUS) == Some(Status(LOADING))
    && LOAD_ERROR !in Find(s', k).value
  }

  /** The state after a LOAD's dispatched actions went through the lifecycle stage. */
  function AfterLoad(s: State, k: Value, outcome: LoaderOutcome): State {
    ApplyAll(s, Dispatched(LoadPluginHandler(LoadPlugin(k), s, outcome).effects))
  }

  /** INSTALL of the loaded record, with its key forced to `k`, over a registered record. */
  lemma InstallStep(s1: State, k: Value, loaded: Record)
    requires Truthy(k) && Find(s1, k).Some?
    ensures var s2 := Lifecycle(s1, InstallPlugin(loaded[KEY := k]));
      && OnlyTouches(s1, s2, k)
      && Find(s2, k).Some?
      && Field(Find(s2, k).value, LOAD_STATUS) == Some(Status(LOADED))
      && LOAD_ERROR !in Find(s2, k).value
      && Covers(Find(s2, k).value, loaded - {KEY, LOAD_STATUS, LOAD_ERROR})
      && (Field(Find(s1, k).value, KEY) == Some(k) ==> Field(Find(s2, k).value, KEY) == Some(k))
  {
    var p := loaded[KEY := k];
    assert PluginArg(InstallPlugin(p)) == Some((k, p));
    FieldNamesDistinct();
  }

  lemma OnlyTouchesTrans(s: State, s1: State, s2: State, k: Value)
    requires OnlyTouches(s, s1, k) && OnlyTouches(s1, s2, k)
    ensures OnlyTouches(s, s2, k)
  {
  }

  lemma LoadSucceeds(s: State, k: Value, outcome: LoaderOutcome)
    requires Truthy(k) && Find(s, k).Some?
    requires Field(Find(s, k).value, LOAD_STATUS) != Some(Status(LOADED))
    requires FnField(Find(s, k).value, LOAD).Some?
    requires Settled(outcome).Succ? && Settled(outcome).value.Nested?
    ensures OnlyTouches(s, AfterLoad(s, k, outcome), k)
    ensures InstalledAt(s, AfterLoad(s, k, outcome), k, Settled(outcome).value.fields)
  {
    var s1 := Lifecycle(s, SetPluginStatus(k, LoadingFields()));
    var loaded := Settled(outcome).value.fields;
    StartedLoadState(s, k, outcome);
    LoadingStep(s, k);
    ApplyOne(s1, InstallPlugin(loaded[KEY := k]));
    InstallStep(s1, k, loaded);
    OnlyTouchesTrans(s, s1, AfterLoad(s, k, outcome), k);
  }

  lemma LoadFails(s: State, k: Value, outcome: LoaderOutcome)
    requires Find(s, k).Some?
    requires Field(Find(s, k).value, LOAD_STATUS) != Some(Status(LOADED))
    requires FnField(Find(s, k).value, LOAD).Some?
    requires Settled(outcome).Fail?
    ensures OnlyTouches(s, AfterLoad(s, k, outcome), k)
    ensures FailedAt(AfterLoad(s, k, outcome), k, Settled(outcome).error)
  {
    var s1 := Lifecycle(s, SetPluginStatus(k, LoadingFields()));
    StartedLoadState(s, k, outcome);
    LoadingStep(s, k);
    ApplyOne(s1, SetPluginStatus(k, FailedFields(Settled(outcome).error)));
  }

  lemma LoadStalls(s: State, k: Value, outcome: LoaderOutcome)
    requires Find(s, k).Some?
    requires Field(Find(s, k).value, LOAD_STATUS) != Some(Status(LOADED))
    requires FnField(Find(s, k).value, LOAD).Some?
    requires Settled(outcome).Unsettled? || (Settled(outcome).Succ? && !Settled(outcome).value.Nested?)
    ensures OnlyTouches(s, AfterLoad(s, k, outcome), k)
    ensures LoadingAt(AfterLoad(s, k, outcome), k)
  {
    StartedLoadState(s, k, outcome);
    LoadingStep(s, k);
  }

  /** A record stored under a falsy key (only an initial state can hold one):
      the load resolves, but the INSTALL it dispatches fails validation and is
      ignored, so the record stays LOADING. */
  lemma LoadUnderFalsyKey(s: State, k: Value, outcome: LoaderOutcome)
    requires !Truthy(k) && Find(s, k).Some?
    requires Field(Find(s, k).value, LOAD_STATUS) != Some(Status(LOADED))
    requires FnField(Find(s, k).value, LOAD).Some?
    requires Settled(outcome).Succ? && Settled(outcome).value.Nested?
    ensures OnlyTouches(s, AfterLoad(s, k, outcome), k)
    ensures LoadingAt(AfterLoad(s, k, outcome), k)
  {
    var s1 := Lifecycle(s, SetPluginStatus(k, LoadingFields()));
    var install := InstallPlugin(Settled(outcome).value.fields[KEY := k]);
    StartedLoadState(s, k, outcome);
    LoadingStep(s, k);
    ApplyOne(s1, install);
    assert PluginArg(install).None?;
  }

  /** Feeding the LOAD protocol's dispatched actions through the lifecycle
      stage: success leaves the record LOADED without `loadError` and resolves
      with the loader's record (unless the key is falsy, when the INSTALL is
      ignored and the record stays LOADING); loader failure leaves it
      NOT_LOADED with that error and rejects with it; an unsettled load or a
      value that is not a record leaves it LOADING with the error cleared.
      Nothing but that record changes. */
  lemma LoadThenReduce(s: State, k: Value, outcome: LoaderOutcome)
    requires Find(s, k).Some?
    requires Field(Find(s, k).value, LOAD_STATUS) != Some(Status(LOADED))
    requires FnField(Find(s, k).value, LOAD).Some?
    ensures OnlyTouches(s, AfterLoad(s, k, outcome), k)
    ensures var st := Settled(outcome);
      var result := LoadPluginHandler(LoadPlugin(k), s, outcome).result;
      && (st.Succ? && st.value.Nested? ==> result == Resolved(st.value.fields))
      && (st.Succ? && st.value.Nested? && Truthy(k) ==> InstalledAt(s, AfterLoad(s, k, outcome), k, st.value.fields))
      && (st.Succ? && st.value.Nested? && !Truthy(k) ==> LoadingAt(AfterLoad(s, k, outcome), k))
      && (st.Fail? ==> FailedAt(AfterLoad(s, k, outcome), k, st.error) && result == Rejected(LoadFailed(st.error)))
      && (st.Succ? && !st.value.Nested? ==> LoadingAt(AfterLoad(s, k, outcome), k) && result == Rejected(NotACollection))
      && (st.Unsettled? ==> LoadingAt(AfterLoad(s, k, outcome), k) && result == Pending)
  {
    var st := Settled(outcome);
    if st.Succ? && st.value.Nested? {
      if Truthy(k) {
        LoadSucceeds(s, k, outcome);
      } else {
        LoadUnderFalsyKey(s, k, outcome);
      }
    } else if st.Fail? {
      LoadFails(s, k, outcome);
    } else {
      LoadStalls(s, k, outcome);
    }
  }

  lemma {:induction false} ApplyAllAppend(s: State, xs: seq<Action>, ys: seq<Action>)
    decreases |xs|
    ensures ApplyAll(s, xs + ys) == ApplyAll(ApplyAll(s, xs), ys)
  {
    if |xs| == 0 {
      assert xs + ys == ys;
    } else {
      assert (xs + ys)[0] == xs[0];
      assert (xs + ys)[1..] == xs[1..] + ys;
      ApplyAllAppend(Lifecycle(s, xs[0]), xs[1..], ys);
    }
  }

  // ---- Plugin middleware, in collection order ----

  /** What one plugin middleware does with an action: hand a (possibly
      different) action to the next stage, or stop the chain. */
  datatype MwStep = PassOn(action: Action) | Stop

  /** Which middleware ran, in order, and what reached the terminal dispatch. */
  datatype ChainRun = ChainRun(visited: seq<FnId>, reached: Option<Action>)

  /** A composed middleware chain: the first id runs outermost. */
  function RunChain(ids: seq<FnId>, a: Action, step: (FnId, Action) -> MwStep): (r: ChainRun)
    ensures |r.visited| <= |ids| && r.visited == ids[..|r.visited|]
    ensures r.reached.Some? ==> r.visited == ids
    ensures |ids| > 0 ==> |r.visited| > 0
  {
    if |ids| == 0 then ChainRun([], Some(a))
    else
      match step(ids[0], a)
      case Stop => ChainRun([ids[0]], None)
      case PassOn(next) =>
        var rest := RunChain(ids[1..], next, step);
        assert ids == [ids[0]] + ids[1..];
        ChainRun([ids[0]] + rest.visited, rest.reached)
  }

  /** When every middleware passes the action on untouched, all of them run,
      in order, and the action reaches the terminal dispatch unchanged. */
  lemma {:induction false} RunChainAllPass(ids: seq<FnId>, a: Action, step: (FnId, Action) -> MwStep)
    requires forall id, b :: step(id, b) == PassOn(b)
    ensures RunChain(ids, a, step) == ChainRun(ids, Some(a))
  {
    if |ids| > 0 {
      RunChainAllPass(ids[1..], a, step);
      assert ids == [ids[0]] + ids[1..];
    }
  }

  /** The plugin middleware read from a state: those of its plugins that
      have one, in collection order; none when there is no collection. */
  function SelectPluginMiddleware(s: State): (ids: seq<FnId>)
    ensures s.plugins.None? ==> ids == []
  {
    if s.plugins.None? then [] else Contributed(s.plugins.value, MIDDLEWARE)
  }

  /** The last stage of the exported middleware: the plugin middleware is
      selected from the state current when the action arrives, then run. */
  function DynamicStage(s: State, a: Action, step: (FnId, Action) -> MwStep): (r: ChainRun)
    ensures s.plugins.None? ==> r == ChainRun([], Some(a))
    ensures forall id :: id in r.visited ==> id in SelectPluginMiddleware(s)
    ensures SelectPluginMiddleware(s) != [] ==> |r.visited| > 0 && r.visited[0] == SelectPluginMiddleware(s)[0]
  {
    RunChain(SelectPluginMiddleware(s), a, step)
  }

  // ---- The exported middleware ----

  /** What the built-in stage did with an action: ADD and LOAD go to their
      handlers; every other action is passed on untouched. */
  datatype Handled = ByAdd(add: AddRun<ChainRun>) | ByLoad(load: LoadRun) | NotIntercepted

  /** One action through the exported middleware: the plugin chain's run on
      the action that reached it, and what the built-in stage did around it. */
  datatype ExportRun = ExportRun(stage: ChainRun, handled: Handled)

  /** The default export: the built-in handlers, keyed by action type, composed
      in front of the dynamic plugin stage, which is their `next`. `s` is the
      state when the action is dispatched; `after` is the state a LOAD handler
      reads once its forwarded action has been reduced. What `next` returns
      is modelled as the plugin chain's run. When a plugin middleware stops a
      LOAD, nothing reaches the store and `after` is `s` in every real run;
      the function does not enforce that, and the caller supplies it. */
  function ExportedMiddleware(s: State, a: Action, step: (FnId, Action) -> MwStep,
                              after: State, outcome: LoaderOutcome): (run: ExportRun)
    ensures run.stage == DynamicStage(s, a, step)
    ensures a.kind == ADD_PLUGIN ==> run.handled == ByAdd(AddPluginHandler(a, run.stage))
    ensures a.kind == LOAD_PLUGIN ==> run.handled == ByLoad(LoadPluginHandler(a, after, outcome))
    ensures run.handled.ByAdd? <==> a.kind == ADD_PLUGIN
    ensures run.handled.ByLoad? <==> a.kind == LOAD_PLUGIN
    ensures run.handled.ByAdd? ==> |run.handled.add.effects| > 0 && run.handled.add.effects[0] == Forward(a)
    ensures run.handled.ByAdd? && run.handled.add.result.Returned? ==> run.handled.add.result.value == run.stage
    ensures run.handled.ByLoad? ==> |run.handled.load.effects| > 0 && run.handled.load.effects[0] == Forward(a)
  {
    var stage := DynamicStage(s, a, step);
    if a.kind == ADD_PLUGIN then ExportRun(stage, ByAdd(AddPluginHandler(a, stage)))
    else if a.kind == LOAD_PLUGIN then ExportRun(stage, ByLoad(LoadPluginHandler(a, after, outcome)))
    else ExportRun(stage, NotIntercepted)
  }

  /** Any action other than ADD and LOAD goes straight to the plugin
      middleware, selected from the state current at dispatch; with no
      plugins it reaches the store unchanged. */
  lemma OtherActionsPassThrough(s: State, a: Action, step: (FnId, Action) -> MwStep,
                                after: State, outcome: LoaderOutcome)
    requires a.kind != ADD_PLUGIN && a.kind != LOAD_PLUGIN
    ensures ExportedMiddleware(s, a, step, after, outcome) == ExportRun(DynamicStage(s, a, step), NotIntercepted)
    ensures s.plugins.None? ==> ExportedMiddleware(s, a, step, after, outcome).stage.reached == Some(a)
  {
  }

  /** The trace of a built-in handler forwards the action exactly once, as its
      first effect: the plugin middleware sees the unchanged action before any
      hook is called or any status is dispatched. */
  predicate ForwardsFirst(effects: seq<Effect>, a: Action) {
    |effects| > 0 && effects[0] == Forward(a) && forall n :: 0 < n < |effects| ==> !effects[n].Forward?
  }

  lemma BuiltInBeforePlugins(s: State, a: Action, step: (FnId, Action) -> MwStep,
                             after: State, outcome: LoaderOutcome)
    requires a.kind == ADD_PLUGIN || a.kind == LOAD_PLUGIN
    ensures var run := ExportedMiddleware(s, a, step, after, outcome);
      && run.stage == DynamicStage(s, a, step)
      && (run.handled.ByAdd? ==> ForwardsFirst(run.handled.add.effects, a))
      && (run.handled.ByLoad? ==> ForwardsFirst(run.handled.load.effects, a))
  {
  }

  /** The hook of an ADD fires even when a plugin middleware stops the action
      before it reaches the store; the chain's run is what ADD returns. */
  lemma HookFiresWhenPluginStops(s: State, p: Record, hook: FnId, step: (FnId, Action) -> MwStep,
                                 after: State, outcome: LoaderOutcome)
    requires PLUGIN_WAS_ADDED in p && p[PLUGIN_WAS_ADDED] == Fn(hook)
    requires forall id, b :: step(id, b) == Stop
    requires SelectPluginMiddleware(s) != []
    ensures var run := ExportedMiddleware(s, AddPlugin(p), step, after, outcome);
      && run.stage.reached.None?
      && run.handled == ByAdd(AddRun([Forward(AddPlugin(p)), CallHook(hook)], Returned(run.stage)))
  {
  }

  /** Of two plugins with middleware, the earlier plugin's middleware comes
      first in the chain: whatever the middleware do with the action, when
      the later one runs the earlier one has already run, and when all of
      them pass the action on, both run. */
  lemma MiddlewareInCollectionOrder(s: State, i: nat, j: nat, a: Action, step: (FnId, Action) -> MwStep)
    requires s.plugins.Some? && i < j < |s.plugins.value|
    requires FnField(s.plugins.value[i].1, MIDDLEWARE).Some? && FnField(s.plugins.value[j].1, MIDDLEWARE).Some?
    ensures var ids := SelectPluginMiddleware(s);
      var r := DynamicStage(s, a, step);
      var mi := FnField(s.plugins.value[i].1, MIDDLEWARE).value;
      var mj := FnField(s.plugins.value[j].1, MIDDLEWARE).value;
      exists p, q :: 0 <= p < q < |ids| && ids[p] == mi && ids[q] == mj
        && (q < |r.visited| ==> r.visited[p] == mi && r.visited[q] == mj)
        && ((forall id, b :: step(id, b) == PassOn(b)) ==> q < |r.visited|)
  {
    var c := s.plugins.value;
    ContributedInOrder(c, MIDDLEWARE, i, j);
    var p := |Contributed(c[..i], MIDDLEWARE)|;
    var q := |Contributed(c[..j], MIDDLEWARE)|;
    var ids := SelectPluginMiddleware(s);
    ChainPositions(ids, p, q, a, step);
    assert 0 <= p < q < |ids|;
  }

  /** In any chain, a middleware at a later position runs only after the ones
      before it; when all pass the action on, every position is reached. */
  lemma ChainPositions(ids: seq<FnId>, p: nat, q: nat, a: Action, step: (FnId, Action) -> MwStep)
    requires p < q < |ids|
    ensures var r := RunChain(ids, a, step);
      && (q < |r.visited| ==> r.visited[p] == ids[p] && r.visited[q] == ids[q])
      && ((forall id, b :: step(id, b) == PassOn(b)) ==> q < |r.visited|)
  {
    if forall id, b :: step(id, b) == PassOn(b) {
      RunChainAllPass(ids, a, step);
    }
  }

  /** Once a load has succeeded, a second LOAD of the same key resolves
      straight away with the stored record and dispatches nothing. */
  lemma SecondLoadShortCircuits(s: State, k: Value, outcome: LoaderOutcome, again: LoaderOutcome)
    requires Truthy(k) && Find(s, k).Some?
    requires Field(Find(s, k).value, LOAD_STATUS) != Some(Status(LOADED))
    requires FnField(Find(s, k).value, LOAD).Some?
    requires Settled(outcome).Succ? && Settled(outcome).value.Nested?
    ensures var s' := AfterLoad(s, k, outcome);
      Find(s', k).Some? &&
      LoadPluginHandler(LoadPlugin(k), s', again) == LoadRun([Forward(LoadPlugin(k))], Resolved(Find(s', k).value))
  {
    LoadSucceeds(s, k, outcome);
  }

  /** Plugins `a` (middleware A), `c` (none) and `b` (middleware B), in that
      order: a dispatch runs A, then B, then reaches the store unchanged. */
  lemma MiddlewareScenario(ra: Record, rc: Record, rb: Record, idA: FnId, idB: FnId,
                           a: Action, step: (FnId, Action) -> MwStep)
    requires MIDDLEWARE in ra && ra[MIDDLEWARE] == Fn(idA)
    requires MIDDLEWARE !in rc
    requires MIDDLEWARE in rb && rb[MIDDLEWARE] == Fn(idB)
    requires forall id, b :: step(id, b) == PassOn(b)
    ensures var s := State(Some([(Str("a"), ra), (Str("c"), rc), (Str("b"), rb)]), map[]);
      DynamicStage(s, a, step) == ChainRun([idA, idB], Some(a))
  {
    var c := [(Str("a"), ra), (Str("c"), rc), (Str("b"), rb)];
    assert c == [(Str("a"), ra)] + [(Str("c"), rc)] + [(Str("b"), rb)];
    ContributedSkips([(Str("a"), ra)], (Str("c"), rc), [(Str("b"), rb)], MIDDLEWARE);
    ContributedAppend([(Str("a"), ra)], [(Str("b"), rb)], MIDDLEWARE);
    assert [(Str("a"), ra)][1..] == [] && [(Str("b"), rb)][1..] == [];
    RunChainAllPass([idA, idB], a, step);
  }
}

=== FILE: plugin_record.dfy ===
/**
 The plugin record: an immutable map from field names to values, as the
 registry stores it under `state.plugins[key]`. Values are a small closed
 universe standing in for the JavaScript values a record can hold: strings,
 load statuses, error objects, functions (kept opaque, by id) and nested
 immutable maps. `MergeFields` is the recursive override that the registry
 uses as Immutable's `mergeDeep`.
 */
module Values {

  datatype Option<+T> = None | Some(value: T)

  /** The three load statuses a plugin moves through. */
  datatype LoadStatus = NOT_LOADED | LOADING | LOADED

  /** Opaque identities of plugin-supplied functions and of error objects. */
  type FnId = nat
  type ErrId = nat

  datatype Value =
    | Str(s: string)
    | Status(status: LoadStatus)
    | Err(err: ErrId)
    | Fn(fn: FnId)
    | Nested(fields: map<string, Value>)

  type Record = map<string, Value>

  // Field names the registry reads or writes.
  const KEY: string := "key"
  const LOAD_STATUS: string := "loadStatus"
  const LOAD_ERROR: string := "loadError"
  const LOAD: string := "load"
  const REDUCER: string := "reducer"
  const MIDDLEWARE: string := "middleware"
  const PLUGIN_WAS_ADDED: string := "pluginWasAdded"

  lemma FieldNamesDistinct()
    ensures KEY != LOAD_STATUS && KEY != LOAD_ERROR && LOAD_STATUS != LOAD_ERROR
  {
  }

  /** JavaScript truthiness over this value universe: only the empty string is falsy. */
  predicate Truthy(v: Value) {
    !(v.Str? && v.s == "")
  }

  /** A field that is present with a truthy value (`if (x)` on a possibly absent property). */
  predicate Present(o: Option<Value>) {
    o.Some? && Truthy(o.value)
  }

  /** `record.get(name)`, with absence made explicit. */
  function Field(r: Record, name: string): (o: Option<Value>)
    ensures o.Some? <==> name in r
    ensures o.Some? ==> o.value == r[name]
  {
    if name in r then Some(r[name]) else None
  }

  /** `record.get(name)` when it is a function, as `instanceof Function` tests it. */
  function FnField(r: Record, name: string): (o: Option<FnId>)
    ensures o.Some? <==> name in r && r[name].Fn?
    ensures o.Some? ==> r[name] == Fn(o.value)
  {
    if name in r && r[name].Fn? then Some(r[name].fn) else None
  }

  /** Immutable's deep merge of one value over another: two maps merge
      recursively, anything else is overridden by the incoming value. */
  function MergeValue(existing: Value, incoming: Value): Value
    decreases incoming, 1
  {
    if existing.Nested? && incoming.Nested? then
      Nested(MergeFields(existing.fields, incoming.fields))
    else
      incoming
  }

  /** `existing.mergeDeep(incoming)` on two records. */
  function MergeFields(existing: Record, incoming: Record): (r: Record)
    decreases Nested(incoming), 0
    ensures r.Keys == existing.Keys + incoming.Keys
    ensures forall k :: k in existing && k !in incoming ==> r[k] == existing[k]
    ensures forall k :: k in incoming && !(k in existing && existing[k].Nested? && incoming[k].Nested?) ==>
              r[k] == incoming[k]
  {
    map k | k in existing.Keys + incoming.Keys ::
      if k in incoming then
        (if k in existing then MergeValue(existing[k], incoming[k]) else incoming[k])
      else
        existing[k]
  }

  /** `r` contains every field of `b`: the same value, or, for two maps,
      a map that itself covers `b`'s (what "objectContaining" means here). */
  predicate Covers(r: Record, b: Record)
    decreases Nested(b), 0
  {
    forall k :: k in b ==> k in r && ValueCovers(r[k], b[k])
  }

  predicate ValueCovers(x: Value, y: Value)
    decreases y, 1
  {
    x == y || (x.Nested? && y.Nested? && Covers(x.fields, y.fields))
  }

  /** Every incoming field survives a deep merge, at every depth. */
  lemma {:induction false} MergeCovers(existing: Record, incoming: Record)
    decreases Nested(incoming), 0
    ensures Covers(MergeFields(existing, incoming), incoming)
  {
    var r := MergeFields(existing, incoming);
    forall k | k in incoming
      ensures k in r && ValueCovers(r[k], incoming[k])
    {
      if k in existing {
        MergeValueCovers(existing[k], incoming[k]);
      }
    }
  }

  lemma {:induction false} MergeValueCovers(existing: Value, incoming: Value)
    decreases incoming, 1
    ensures ValueCovers(MergeValue(existing, incoming), incoming)
  {
    if existing.Nested? && incoming.Nested? {
      MergeCovers(existing.fields, incoming.fields);
    }
  }

  /** A record merged over itself is unchanged. */
  lemma {:induction false} MergeSelf(r: Record)
    decreases Nested(r), 0
    ensures MergeFields(r, r) == r
  {
    var m := MergeFields(r, r);
    forall k | k in r
      ensures m[k] == r[k]
    {
      MergeValueSelf(r[k]);
    }
  }

  lemma {:induction false} MergeValueSelf(v: Value)
    decreases v, 1
    ensures MergeValue(v, v) == v
  {
    if v.Nested? {
      MergeSelf(v.fields);
    }
  }

  /** Merging the same record in twice changes nothing the first merge did not. */
  lemma {:induction false} MergeIdempotent(existing: Record, incoming: Record)
    decreases Nested(incoming), 0
    ensures MergeFields(MergeFields(existing, incoming), incoming) == MergeFields(existing, incoming)
  {
    var once := MergeFields(existing, incoming);
    var twice := MergeFields(once, incoming);
    assert twice.Keys == once.Keys;
    forall k | k in once
      ensures twice[k] == once[k]
    {
      if k in incoming {
        if k in existing {
          MergeValueIdempotent(existing[k], incoming[k]);
        } else {
          MergeValueSelf(incoming[k]);
        }
        assert twice[k] == MergeValue(once[k], incoming[k]);
      }
    }
  }

  lemma {:induction false} MergeValueIdempotent(existing: Value, incoming: Value)
    decreases incoming, 1
    ensures MergeValue(MergeValue(existing, incoming), incoming) == MergeValue(existing, incoming)
  {
    if existing.Nested? && incoming.Nested? {
      MergeIdempotent(existing.fields, incoming.fields);
    } else {
      MergeValueSelf(incoming);
    }
  }

  /** `r` keeps what `existing` had and `incoming` does not override: a field
      the incoming record lacks is unchanged, and where both records hold a
      map under one field, `r` holds a map that retains the existing one's
      fields in the same sense, at every depth. */
  predicate Retains(r: Record, existing: Record, incoming: Record)
    decreases Nested(incoming), 0
  {
    forall k :: k in existing ==>
      k in r && (if k in incoming then ValueRetains(r[k], existing[k], incoming[k]) else r[k] == existing[k])
  }

  predicate ValueRetains(x: Value, e: Value, y: Value)
    decreases y, 1
  {
    e.Nested? && y.Nested? ==> x.Nested? && Retains(x.fields, e.fields, y.fields)
  }

  /** The merge is deep: nothing the existing record holds is lost unless the
      incoming record overrides that very field with something that is not a map. */
  lemma {:induction false} MergeRetains(existing: Record, incoming: Record)
    decreases Nested(incoming), 0
    ensures Retains(MergeFields(existing, incoming), existing, incoming)
  {
    var r := MergeFields(existing, incoming);
    forall k | k in existing && k in incoming
      ensures ValueRetains(r[k], existing[k], incoming[k])
    {
      MergeValueRetains(existing[k], incoming[k]);
    }
  }

  lemma {:induction false} MergeValueRetains(existing: Value, incoming: Value)
    decreases incoming, 1
    ensures ValueRetains(MergeValue(existing, incoming), existing, incoming)
  {
    if existing.Nested? && incoming.Nested? {
      MergeRetains(existing.fields, incoming.fields);
    }
  }

  /** Two one-field records whose field holds a map on both sides: the merge
      keeps the existing inner field beside the incoming one. */
  lemma DeepMergeKeepsInner(f: string, x: string, y: string, vx: Value, vy: Value)
    requires x != y
    ensures var r := MergeFields(map[f := Nested(map[x := vx])], map[f := Nested(map[y := vy])]);
      f in r && r[f] == Nested(map[x := vx, y := vy])
  {
    var e := map[x := vx];
    var i := map[y := vy];
    assert MergeValue(Nested(e), Nested(i)) == Nested(MergeFields(e, i));
    assert MergeFields(e, i) == map[x := vx, y := vy];
  }
}

=== FILE: plugin_reducer.dfy ===
/**
 The registry's reducer: a total function from a state and an action to a
 new state. A first stage handles the four lifecycle actions (ADD, REPLACE,
 INSTALL, SET_PLUGIN_STATUS) on `state.plugins[key]`, degrading malformed
 input to "state unchanged"; a second stage threads the result through every
 stored plugin's own reducer, in collection order.

 Plugin reducers are opaque: `apply(id, s, a)` is what the reducer with id
 `id` returns for state `s` and action `a`.
 */
module Reducer {
  import opened Values
  import opened Actions
  import opened Collection
  import opened Composition

  /** Validation shared by ADD, REPLACE and INSTALL: the payload must be an
      immutable map whose `key` is truthy; yields that key and the record. */
  function PluginArg(a: Action): (r: Option<Entry>)
    ensures r.Some? <==> PluginOf(a).Some? && Present(Field(PluginOf(a).value, KEY))
    ensures r.Some? ==> r.value.1 == PluginOf(a).value && r.value.1[KEY] == r.value.0
  {
    match PluginOf(a)
    case None => None
    case Some(p) => if Present(Field(p, KEY)) then Some((p[KEY], p)) else None
  }

  /** `plugin.update('loadStatus', s => s || NOT_LOADED)`. */
  function WithDefaultStatus(p: Record): (r: Record)
    ensures r.Keys == p.Keys + {LOAD_STATUS}
    ensures forall f :: f in p && f != LOAD_STATUS ==> r[f] == p[f]
    ensures Present(Field(p, LOAD_STATUS)) ==> r[LOAD_STATUS] == p[LOAD_STATUS]
    ensures !Present(Field(p, LOAD_STATUS)) ==> r[LOAD_STATUS] == Status(NOT_LOADED)
  {
    p[LOAD_STATUS := if Present(Field(p, LOAD_STATUS)) then p[LOAD_STATUS] else Status(NOT_LOADED)]
  }

  /** What INSTALL stores: the incoming record deep-merged over the existing
      one (or alone), then marked LOADED with any error removed. */
  function InstalledRecord(existing: Option<Record>, p: Record): (r: Record)
    ensures LOAD_STATUS in r && r[LOAD_STATUS] == Status(LOADED) && LOAD_ERROR !in r
    ensures forall f :: f in p && f != LOAD_STATUS && f != LOAD_ERROR ==> f in r && ValueCovers(r[f], p[f])
    ensures existing.None? ==> r.Keys == (p.Keys + {LOAD_STATUS}) - {LOAD_ERROR}
    ensures existing.None? ==> forall f :: f in p && f != LOAD_STATUS && f != LOAD_ERROR ==> r[f] == p[f]
    ensures existing.Some? ==> r.Keys == (existing.value.Keys + p.Keys + {LOAD_STATUS}) - {LOAD_ERROR}
    ensures existing.Some? ==> forall f :: f in existing.value && f !in p && f != LOAD_STATUS && f != LOAD_ERROR ==>
              r[f] == existing.value[f]
  {
    FieldNamesDistinct();
    var merged := if existing.Some? then MergeFields(existing.value, p) else p;
    assert existing.Some? ==> Covers(merged, p) by {
      if existing.Some? { MergeCovers(existing.value, p); }
    }
    merged[LOAD_STATUS := Status(LOADED)] - {LOAD_ERROR}
  }

  /** SET_PLUGIN_STATUS on one record: the status only when one is given;
      the error set when given and deleted otherwise. */
  function ApplyStatus(rec: Record, f: StatusFields): (r: Record)
    ensures Present(f.loadStatus) ==> Field(r, LOAD_STATUS) == f.loadStatus
    ensures !Present(f.loadStatus) ==> Field(r, LOAD_STATUS) == Field(rec, LOAD_STATUS)
    ensures Present(f.loadError) ==> Field(r, LOAD_ERROR) == f.loadError
    ensures !Present(f.loadError) ==> LOAD_ERROR !in r
    ensures forall k :: k != LOAD_STATUS && k != LOAD_ERROR ==> Field(r, k) == Field(rec, k)
  {
    var withStatus := if Present(f.loadStatus) then rec[LOAD_STATUS := f.loadStatus.value] else rec;
    if Present(f.loadError) then withStatus[LOAD_ERROR := f.loadError.value] else withStatus - {LOAD_ERROR}
  }

  /** Every stored record's `key` field names the key it is stored under. */
  ghost predicate KeysMatch(s: State) {
    forall k :: Find(s, k).Some? ==> KEY in Find(s, k).value && Find(s, k).value[KEY] == k
  }

  // ---- The four lifecycle handlers ----

  function AddHandler(s: State, a: Action): (s': State)
    ensures PluginArg(a).None? ==> s' == s
    ensures PluginArg(a).Some? ==>
      var k := PluginArg(a).value.0;
      var p := PluginArg(a).value.1;
      && OnlyTouches(s, s', k)
      && (Find(s, k).Some? ==> s' == s)
      && (Find(s, k).None? ==> Find(s', k) == Some(WithDefaultStatus(p)) && Find(s', k).value[KEY] == k)
    ensures WellFormed(s) ==> WellFormed(s')
  {
    match PluginArg(a)
    case None => s
    case Some((k, p)) => if Find(s, k).Some? then s else Store(s, k, WithDefaultStatus(p))
  }

  function ReplaceHandler(s: State, a: Action): (s': State)
    ensures PluginArg(a).None? ==> s' == s
    ensures PluginArg(a).Some? ==>
      var k := PluginArg(a).value.0;
      var p := PluginArg(a).value.1;
      && OnlyTouches(s, s', k)
      && (Find(s, k).None? ==> s' == s)
      && (Find(s, k).Some? ==> Find(s', k) == Some(WithDefaultStatus(p)) && Find(s', k).value[KEY] == k)
    ensures WellFormed(s) ==> WellFormed(s')
  {
    match PluginArg(a)
    case None => s
    case Some((k, p)) => if Find(s, k).Some? then Store(s, k, WithDefaultStatus(p)) else s
  }

  function InstallHandler(s: State, a: Action): (s': State)
    ensures PluginArg(a).None? ==> s' == s
    ensures PluginArg(a).Some? ==>
      var k := PluginArg(a).value.0;
      var p := PluginArg(a).value.1;
      && OnlyTouches(s, s', k)
      && Find(s', k) == Some(InstalledRecord(Find(s, k), p))
      && KEY in Find(s', k).value && ValueCovers(Find(s', k).value[KEY], k)
      && (Find(s, k).None? || Field(Find(s, k).value, KEY) == Some(k) || !k.Nested? ==> Find(s', k).value[KEY] == k)
    ensures WellFormed(s) ==> WellFormed(s')
  {
    match PluginArg(a)
    case None => s
    case Some((k, p)) =>
      FieldNamesDistinct();
      MergeValueSelf(k);
      Store(s, k, InstalledRecord(Find(s, k), p))
  }

  function SetStatusHandler(s: State, a: Action): (s': State)
    ensures a.meta.None? ==> s' == s
    ensures a.meta.Some? && Find(s, a.meta.value).None? ==> s' == s
    ensures a.meta.Some? && Find(s, a.meta.value).Some? ==>
      var k := a.meta.value;
      && OnlyTouches(s, s', k)
      && Find(s', k) == Some(ApplyStatus(Find(s, k).value, StatusFieldsOf(a)))
    ensures WellFormed(s) ==> WellFormed(s')
  {
    match a.meta
    case None => s
    case Some(k) =>
      match Find(s, k)
      case None => s
      case Some(rec) => Store(s, k, ApplyStatus(rec, StatusFieldsOf(a)))
  }

  /** The lifecycle stage: dispatch on the action type; any other type leaves the state alone. */
  function Lifecycle(s: State, a: Action): (s': State)
    ensures a.kind !in {ADD_PLUGIN, REPLACE_PLUGIN, INSTALL_PLUGIN, SET_PLUGIN_STATUS} ==> s' == s
    ensures WellFormed(s) ==> WellFormed(s')
  {
    if a.kind == ADD_PLUGIN then AddHandler(s, a)
    else if a.kind == REPLACE_PLUGIN then ReplaceHandler(s, a)
    else if a.kind == INSTALL_PLUGIN then InstallHandler(s, a)
    else if a.kind == SET_PLUGIN_STATUS then SetStatusHandler(s, a)
    else s
  }

  /** The lifecycle stage keeps every record's `key` field equal to its map key. */
  lemma LifecycleKeepsKeysMatch(s: State, a: Action)
    requires KeysMatch(s)
    ensures KeysMatch(Lifecycle(s, a))
  {
    var s' := Lifecycle(s, a);
    forall k | Find(s', k).Some?
      ensures KEY in Find(s', k).value && Find(s', k).value[KEY] == k
    {
      if a.kind == SET_PLUGIN_STATUS && a.meta.Some? && Find(s, a.meta.value).Some? && k == a.meta.value {
        assert Field(Find(s', k).value, KEY) == Field(Find(s, k).value, KEY);
      }
    }
  }

  // ---- The plugin-reducer stage ----

  /** The plugin reducers read from a state: those of its stored plugins that
      have one, in collection order; none when there is no collection. */
  function SelectPluginReducers(s: State): (ids: seq<FnId>)
    ensures s.plugins.None? ==> ids == []
  {
    if s.plugins.None? then [] else Contributed(s.plugins.value, REDUCER)
  }

  /** A reducer is selected exactly when some stored plugin has it. */
  lemma SelectedReducers(s: State, id: FnId)
    requires WellFormed(s)
    ensures id in SelectPluginReducers(s) <==>
      exists k :: Find(s, k).Some? && FnField(Find(s, k).value, REDUCER) == Some(id)
  {
    if s.plugins.Some? {
      var c := s.plugins.value;
      ContributedMembers(c, REDUCER, id);
      if exists k :: Find(s, k).Some? && FnField(Find(s, k).value, REDUCER) == Some(id) {
        var k :| Find(s, k).Some? && FnField(Find(s, k).value, REDUCER) == Some(id);
        var i := LookupIndex(c, k);
      }
      if id in Contributed(c, REDUCER) {
        var i :| 0 <= i < |c| && FnField(c[i].1, REDUCER) == Some(id);
        LookupAt(c, i);
        assert Find(s, c[i].0).Some? && FnField(Find(s, c[i].0).value, REDUCER) == Some(id);
      }
    }
  }

  /** Reducers applied left to right, each seeing the previous one's output. */
  function RunReducers(ids: seq<FnId>, s: State, a: Action, apply: (FnId, State, Action) -> State): (r: State)
    ensures |ids| == 1 ==> r == apply(ids[0], s, a)
    ensures (forall id, t :: apply(id, t, a) == t) ==> r == s
  {
    if |ids| == 0 then s else RunReducers(ids[1..], apply(ids[0], s, a), a, apply)
  }

  /** Running two lists of reducers one after the other is running their concatenation. */
  lemma {:induction false} RunReducersAppend(xs: seq<FnId>, ys: seq<FnId>, s: State, a: Action,
                                             apply: (FnId, State, Action) -> State)
    ensures RunReducers(xs + ys, s, a, apply) == RunReducers(ys, RunReducers(xs, s, a, apply), a, apply)
  {
    if |xs| == 0 {
      assert xs + ys == ys;
    } else {
      assert (xs + ys)[1..] == xs[1..] + ys;
      RunReducersAppend(xs[1..], ys, apply(xs[0], s, a), a, apply);
    }
  }

  /** The whole reducer: the lifecycle stage, then the plugin reducers read
      from the state that stage produced. */
  function PluginReducer(s: State, a: Action, apply: (FnId, State, Action) -> State): (s': State)
    ensures Lifecycle(s, a).plugins.None? ==> s' == Lifecycle(s, a)
  {
    var s1 := Lifecycle(s, a);
    RunReducers(SelectPluginReducers(s1), s1, a, apply)
  }

  /** The plugin stage over a collection split in two runs the first part's
      reducers, then the second part's, on the first part's output. */
  lemma PluginStageInOrder(s1: State, c1: Plugins, c2: Plugins, a: Action, apply: (FnId, State, Action) -> State)
    requires s1.plugins == Some(c1 + c2)
    ensures RunReducers(SelectPluginReducers(s1), s1, a, apply)
         == RunReducers(Contributed(c2, REDUCER), RunReducers(Contributed(c1, REDUCER), s1, a, apply), a, apply)
  {
    ContributedAppend(c1, c2, REDUCER);
    RunReducersAppend(Contributed(c1, REDUCER), Contributed(c2, REDUCER), s1, a, apply);
  }

  /** When no stored plugin has a reducer, the whole reducer is the lifecycle stage. */
  lemma NoPluginReducers(s: State, a: Action, apply: (FnId, State, Action) -> State)
    requires WellFormed(s)
    requires forall k :: Find(Lifecycle(s, a), k).Some? ==> FnField(Find(Lifecycle(s, a), k).value, REDUCER).None?
    ensures PluginReducer(s, a, apply) == Lifecycle(s, a)
  {
    var s1 := Lifecycle(s, a);
    var ids := SelectPluginReducers(s1);
    assert |ids| == 0 || ids[0] in ids;
    forall id ensures id !in ids {
      SelectedReducers(s1, id);
    }
  }

  /** Plugins p1 (reducer r1), p2 (none) and p3 (reducer r3), in that order:
      the plugin stage runs r1, then r3 on r1's output, and p2 is skipped. */
  lemma ReducerScenario(s1: State, e1: Entry, e2: Entry, e3: Entry, r1: FnId, r3: FnId,
                        a: Action, apply: (FnId, State, Action) -> State)
    requires s1.plugins == Some([e1, e2, e3])
    requires REDUCER in e1.1 && e1.1[REDUCER] == Fn(r1)
    requires REDUCER !in e2.1
    requires REDUCER in e3.1 && e3.1[REDUCER] == Fn(r3)
    ensures RunReducers(SelectPluginReducers(s1), s1, a, apply) == apply(r3, apply(r1, s1, a), a)
  {
    assert [e1, e2, e3] == [e1] + [e2] + [e3];
    ContributedSkips([e1], e2, [e3], REDUCER);
    ContributedAppend([e1], [e3], REDUCER);
    assert [e1][1..] == [] && [e3][1..] == [];
    assert SelectPluginReducers(s1) == [r1, r3];
    assert [r1, r3][1..] == [r3] && [r3][1..] == [];
    var t1 := apply(r1, s1, a);
    assert RunReducers([r1, r3], s1, a, apply) == RunReducers([r3], t1, a, apply);
    assert RunReducers([r3], t1, a, apply) == RunReducers([], apply(r3, t1, a), a, apply);
  }

  /** Only INSTALL establishes "LOADED and no error": SET_PLUGIN_STATUS can
      store a LOADED status together with an error. */
  lemma LoadedWithErrorIsStorable(s: State, k: Value, e: Value)
    requires Find(s, k).Some? && Truthy(e)
    ensures var s' := Lifecycle(s, SetPluginStatus(k, StatusFields(Some(Status(LOADED)), Some(e))));
      && Field(Find(s', k).value, LOAD_STATUS) == Some(Status(LOADED))
      && Field(Find(s', k).value, LOAD_ERROR) == Some(e)
  {
  }
}
